=== FILE: README.md ===
# UtilityManager utilities in Dafny

A model of the three self-contained utility classes of the UtilityManager plugin library for
Bukkit/Spigot game servers:

- **LocationUtils** turns a location into the string `world/x/y/z/yaw/pitch` and parses such a
  string back against the server's loaded worlds. It compares two locations with or without
  their orientation. It also lists the blocks in a cube ("square") or a ball ("circle") around
  a centre, optionally filtered by a predicate.
- **MessageUtils** keeps a chat prefix and a flag saying whether to use it. It colours and
  strips colour codes in text, and it formats and sends chat messages, ignoring blank text.
- **EnumValidator** looks up an enum constant (a Material, a Sound, or any enum) by its exact
  name and returns an empty result instead of failing.

Modules and files:

- `wrappers.dfy`, module `Wrappers`: `Option` (a nullable reference, `java.util.Optional`) and
  `Result` (a value or the exception thrown).
- `java_lang.dfy`, module `JavaLang`: the Java and commons-lang behaviour the classes rely on.
  This covers `StringUtils.isBlank` with `Character.isWhitespace`, `String.trim` and
  `String.split` on one character (trailing empty pieces dropped). It also covers
  `StringJoiner`, `Integer.toString`, `Long.parseLong` with its 64-bit range check, and the
  integral subset of `Double.parseDouble`.
- `lattice.dfy`, module `Lattice`: blocks as integer triples, and the triple loop of the scans
  as Column (z), Layer (y) and Cuboid (x). It also holds filtering, scan order and ordered
  subsequences.
- `location_utils.dfy`, `message_utils.dfy`, `enum_validator.dfy`: the three classes.

Modelling choices:

- A Java `String` that may be null is `Option<string>`.
- A location is its world's name, its block coordinates and its yaw and pitch already truncated
  to integers.
- The server's world registry is the set of loaded world names.
- Exceptions are the `ParseError` cases: `BlankInput` (IllegalArgumentException),
  `WorldNotFound` (NullPointerException), `MissingField` (ArrayIndexOutOfBoundsException) and
  `NotANumber` (NumberFormatException). Fields are read left to right, as Java evaluates them.
- A chat recipient is the sequence of strings it has received.
- Bukkit's `ChatColor.translateAlternateColorCodes` and `ChatColor.stripColor` are the two
  function fields of a `ChatColor` value passed in.
- An enum type is the list of its constant names in declaration order.

Points of the code's behaviour that are easy to get wrong:

- Every serialisation writes six fields, yaw and pitch included; the inexact parse simply
  ignores the last two.
- An unknown world is reported (`WorldNotFound`) before any number is read.
- A missing field is reported as an index error (`MissingField`), and a present field that
  does not parse as a number-format error (`NotANumber`). `"///"` splits into no field at all, so it fails with `MissingField(0)` before any
  world lookup.
- The round trip holds for any world name without `/`, the empty name included. It also needs
  the world to be loaded, and yaw and pitch to fit `Long.parseLong`.
- The circle scan is a strict subset of the square scan only from radius 1. At radius 0 both
  are the centre block alone.
- The prefix constructor turns prefixing on even for a null or blank prefix. See Findings.

## Model

| member | source | states |
|---|---|---|
| `LocationUtils.ToString` | src/main/java/me/alen_alex/utils/LocationUtils.java:31-41 | when the world name has no `/`, the result is exactly world, x, y, z, yaw, pitch in that order separated by five `/` (cutting at every `/`, empty pieces included, gives exactly those six fields), so splitting on `/` gives them back; the result is never blank |
| `LocationUtils.ParseLocation` | src/main/java/me/alen_alex/utils/LocationUtils.java:72-92 | fails with BlankInput exactly for null, empty or whitespace-only input; fails with WorldNotFound exactly when the input is not blank and its first split field is not a loaded world, and then names that field (the NullPointerException of the Javadoc), before any number is read; a success is built from the split fields: the world is field 0 and loaded, x, y, z are Double.parseDouble of fields 1-3, yaw and pitch Long.parseLong of fields 4-5 when parseExact and 0 otherwise; MissingField is the field count, below the number read; NotANumber points at a present field the parse reads that its parser rejects; every field read before the reported one parses |
| `LocationUtils.ParseFields` | src/main/java/me/alen_alex/utils/LocationUtils.java:85-91 | after the split: WorldNotFound is reported exactly for an unloaded field 0 and names it (an empty split is MissingField(0), never WorldNotFound); a success has world field 0, loaded, and x, y, z (and yaw, pitch when exact) are the numbers fields 1-3 (4-5) parse to, else yaw = pitch = 0; MissingField is the field count; NotANumber names a present field that does not parse as the number read there; every field read before the reported failure parses; never BlankInput |
| `LocationUtils.ParseLocationExact` | src/main/java/me/alen_alex/utils/LocationUtils.java:94-105 | the one-argument parse succeeds exactly when the input is not blank, splits into at least six fields, field 0 is a loaded world and fields 1-5 parse; BlankInput exactly for blank input; WorldNotFound exactly for an unloaded field 0, naming it; MissingField is the field count, below six; NotANumber names a present field its parser rejects, and every field before the reported one parses; a success has world field 0 and x, y, z, yaw, pitch are the numbers fields 1-5 parse to, and it agrees on world and block with the parse without orientation |
| `LocationUtils.CoordinateField` | src/main/java/me/alen_alex/utils/LocationUtils.java:90-91 | Double.parseDouble(locationArgs[i]): an absent field is MissingField(i); a present one succeeds iff it parses, with the parsed number, else NotANumber(i) |
| `LocationUtils.OrientationField` | src/main/java/me/alen_alex/utils/LocationUtils.java:90 | Long.parseLong(locationArgs[i]): an absent field is MissingField(i); a present one succeeds iff it parses, with the parsed number, else NotANumber(i) |
| `LocationUtils.ReadCoordinates` | src/main/java/me/alen_alex/utils/LocationUtils.java:90-91 | fields 1, 2, 3 read left to right: a success has four fields and x, y, z are what they parse to; MissingField is the field count; NotANumber names a present coordinate field Double.parseDouble rejects; a failure at field 2 or 3 means the fields before it parsed |
| `LocationUtils.ReadOrientation` | src/main/java/me/alen_alex/utils/LocationUtils.java:90 | fields 4, 5 read left to right: a success has six fields and yaw, pitch are what Long.parseLong reads from them; MissingField is the field count; NotANumber names a present field Long.parseLong rejects; a failure at field 5 means field 4 parsed |
| `LocationUtils.CoordinatesFailFirst` | src/main/java/me/alen_alex/utils/LocationUtils.java:90-91 | when reading the block fails, every coordinate field before the reported one parses |
| `LocationUtils.OrientationFailsFirst` | src/main/java/me/alen_alex/utils/LocationUtils.java:90 | when the block is read but yaw or pitch fails, every field before the reported one parses |
| `LocationUtils.ParseLocationSucceeds` | src/main/java/me/alen_alex/utils/LocationUtils.java:81-92 | the parse succeeds iff the input is not blank, has enough fields, names a loaded world and every field read is a number |
| `LocationUtils.ParseFieldsSucceeds` | src/main/java/me/alen_alex/utils/LocationUtils.java:86-91 | the same characterisation for the already-split fields |
| `LocationUtils.ParseFieldsOfFields` | src/main/java/me/alen_alex/utils/LocationUtils.java:89-91 | reading the six written fields gives the location back, with zero orientation when it is not read |
| `LocationUtils.CoordinatesReadBack` | src/main/java/me/alen_alex/utils/LocationUtils.java:90-91 | reading fields 1-3 that hold the written x, y and z gives that block back |
| `LocationUtils.OrientationReadBack` | src/main/java/me/alen_alex/utils/LocationUtils.java:90 | Long.parseLong of the written yaw and pitch gives them back when they fit in 64 bits |
| `LocationUtils.ParseAfterToString` | src/main/java/me/alen_alex/utils/LocationUtils.java:31-92 | round trip: exact parse of toString(loc) is loc when the world name has no `/` and is loaded |
| `LocationUtils.ParseInexactAfterToString` | src/main/java/me/alen_alex/utils/LocationUtils.java:31-92 | parse without orientation of toString(loc) is loc with yaw and pitch set to 0 |
| `LocationUtils.ExactParseRefinesInexact` | src/main/java/me/alen_alex/utils/LocationUtils.java:89-91 | whenever the exact parse succeeds, the inexact parse succeeds with the same world and block and zero orientation |
| `LocationUtils.FieldsSplitBack` | src/main/java/me/alen_alex/utils/LocationUtils.java:32-40 | the joined fields have a `/` right after the world name and split back into the six fields |
| `LocationUtils.ExactIsSimilarWithOrientation` | src/main/java/me/alen_alex/utils/LocationUtils.java:125-139 | isExact holds iff isSimilar holds and yaw and pitch are equal; so isExact implies isSimilar |
| `LocationUtils.SimilarIgnoresOrientation` | src/main/java/me/alen_alex/utils/LocationUtils.java:125-127 | changing only yaw and pitch keeps a location similar; it stays exact only when they are unchanged |
| `LocationUtils.ComparisonsAreEquivalences` | src/main/java/me/alen_alex/utils/LocationUtils.java:125-139 | isSimilar and isExact are both reflexive, symmetric and transitive |
| `LocationUtils.BlocksInRadiusSquare` | src/main/java/me/alen_alex/utils/LocationUtils.java:206-218 | (2r+1)^3 blocks for r >= 0 and none for r < 0; exactly the blocks within centre ± r on every axis; strictly ascending in x, then y, then z, hence without repeats |
| `LocationUtils.BlocksInRadiusSquareWhere` | src/main/java/me/alen_alex/utils/LocationUtils.java:185-198 | exactly the cube's blocks that satisfy the predicate, in scan order, as an ordered subsequence of the unfiltered scan |
| `LocationUtils.BlocksInRadiusCircle` | src/main/java/me/alen_alex/utils/LocationUtils.java:253-270 | exactly the blocks at squared distance <= r² (none for r < 0), in scan order, as an ordered subsequence of the square scan and strictly shorter than it from r = 1 |
| `LocationUtils.BlocksInRadiusCircleWhere` | src/main/java/me/alen_alex/utils/LocationUtils.java:227-245 | exactly the blocks within the circle that satisfy the predicate, in scan order, as an ordered subsequence of the circle scan |
| `LocationUtils.CircleWhereFiltersCircle` | src/main/java/me/alen_alex/utils/LocationUtils.java:227-270 | the filtered circle scan equals the circle scan filtered by the predicate |
| `LocationUtils.SquareScanIsDeterminedByMembers` | src/main/java/me/alen_alex/utils/LocationUtils.java:185-218 | any ascending sequence holding exactly the cube's blocks that satisfy the predicate is the square scan |
| `LocationUtils.CircleScanIsDeterminedByMembers` | src/main/java/me/alen_alex/utils/LocationUtils.java:253-270 | any ascending sequence holding exactly the blocks within the circle is the circle scan |
| `LocationUtils.CircleInsideCube` | src/main/java/me/alen_alex/utils/LocationUtils.java:230-235 | for r >= 0 a block within the circle lies within the cube the loops visit |
| `LocationUtils.CircleInsideCubeEverywhere` | src/main/java/me/alen_alex/utils/LocationUtils.java:230-235 | the same for every block at once |
| `LocationUtils.SquareExceeds` | src/main/java/me/alen_alex/utils/LocationUtils.java:234-235 | a coordinate offset outside [-r, r] alone makes the squared distance exceed r² |
| `LocationUtils.CornerOutsideCircle` | src/main/java/me/alen_alex/utils/LocationUtils.java:256-261 | from r = 1 the cube's corner block fails the distance test, so the circle scan is shorter |
| `Lattice.Layer` | src/main/java/me/alen_alex/utils/LocationUtils.java:209-214 | the y and z loops yield \|ys\|·\|zs\| blocks, exactly those with the given x, a y from ys and a z from zs |
| `Lattice.Cuboid` | src/main/java/me/alen_alex/utils/LocationUtils.java:208-216 | the three loops yield \|xs\|·\|ys\|·\|zs\| blocks, exactly those with coordinates from xs, ys and zs |
| `Lattice.ColumnMembers` | src/main/java/me/alen_alex/utils/LocationUtils.java:210-213 | the z loop yields exactly the blocks with the given x and y and a z from zs |
| `Lattice.IntervalFacts` | src/main/java/me/alen_alex/utils/LocationUtils.java:208 | one loop visits hi - lo + 1 increasing values, exactly lo..hi, and none when lo > hi |
| `Lattice.LayerAscending` | src/main/java/me/alen_alex/utils/LocationUtils.java:209-214 | the y and z loops emit blocks in ascending order |
| `Lattice.CuboidAscending` | src/main/java/me/alen_alex/utils/LocationUtils.java:208-216 | the three loops emit blocks in ascending x, then y, then z order |
| `Lattice.AscendingConcat` | src/main/java/me/alen_alex/utils/LocationUtils.java:208-216 | appending a later ascending run to an ascending run stays ascending |
| `Lattice.IncreasingTail` | src/main/java/me/alen_alex/utils/LocationUtils.java:208 | the later iterations of a loop visit larger values than the first |
| `Lattice.Filter` | src/main/java/me/alen_alex/utils/LocationUtils.java:191-193 | the `if (test) add` step keeps exactly the visited blocks that pass, and no more of them |
| `Lattice.FilterIsSubsequence` | src/main/java/me/alen_alex/utils/LocationUtils.java:185-198 | a filtered scan is an ordered subsequence of the unfiltered one |
| `Lattice.FilterStrongerIsSubsequence` | src/main/java/me/alen_alex/utils/LocationUtils.java:227-245 | filtering by a stronger test gives an ordered subsequence of filtering by a weaker one |
| `Lattice.FilterAll` | src/main/java/me/alen_alex/utils/LocationUtils.java:206-218 | a test every block passes keeps the whole scan |
| `Lattice.FilterFilter` | src/main/java/me/alen_alex/utils/LocationUtils.java:235-237 | testing distance then predicate equals filtering by the conjunction |
| `Lattice.FilterAscending` | src/main/java/me/alen_alex/utils/LocationUtils.java:185-198 | filtering keeps scan order |
| `Lattice.FilterDropsRejected` | src/main/java/me/alen_alex/utils/LocationUtils.java:235-240 | a test that rejects some visited block makes the result strictly shorter |
| `Lattice.AscendingHeadFirst` | src/main/java/me/alen_alex/utils/LocationUtils.java:208-216 | the first block of an ascending scan comes before all the others |
| `Lattice.AscendingUnique` | src/main/java/me/alen_alex/utils/LocationUtils.java:185-270 | two ascending sequences with the same blocks are equal, so a scan is fixed by what it contains |
| `JavaLang.Split` | src/main/java/me/alen_alex/utils/LocationUtils.java:85 | no piece contains the delimiter; a string without it is its only piece; otherwise the result is the list of all delimiter-separated pieces (which join back to the string) with exactly the trailing empty pieces removed, so the last piece is not empty |
| `JavaLang.Pieces` | src/main/java/me/alen_alex/utils/LocationUtils.java:85 | the pieces hold no delimiter and joining them with it gives the string back |
| `JavaLang.DropTrailingEmpty` | src/main/java/me/alen_alex/utils/LocationUtils.java:85 | a prefix of the pieces, ending in a non-empty one, and all that is dropped is empty |
| `JavaLang.SplitOfJoin` | src/main/java/me/alen_alex/utils/LocationUtils.java:32-40 | splitting joined fields gives them back when none holds the delimiter and the last is not empty |
| `JavaLang.PiecesOfJoin` | src/main/java/me/alen_alex/utils/LocationUtils.java:32-40 | the pieces of joined delimiter-free fields are those fields |
| `JavaLang.PiecesAfterField` | src/main/java/me/alen_alex/utils/LocationUtils.java:85 | a delimiter-free field followed by the delimiter is the first piece |
| `JavaLang.PiecesWithoutDelimiter` | src/main/java/me/alen_alex/utils/LocationUtils.java:85 | a string without the delimiter is a single piece |
| `JavaLang.IntToString` | src/main/java/me/alen_alex/utils/LocationUtils.java:34-38 | String.valueOf(int) is non-empty, a leading `-` exactly for negatives and digits everywhere else, with no surrounding whitespace |
| `JavaLang.NatToString` | src/main/java/me/alen_alex/utils/LocationUtils.java:34-38 | the digits of a number, with no leading zero |
| `JavaLang.ParseLong` | src/main/java/me/alen_alex/utils/LocationUtils.java:90 | Long.parseLong only returns values within the 64-bit range |
| `JavaLang.ParseSignedOfIntToString` | src/main/java/me/alen_alex/utils/LocationUtils.java:34-38 | reading back Integer.toString(n) gives n |
| `JavaLang.DigitsOfNatToString` | src/main/java/me/alen_alex/utils/LocationUtils.java:34-38 | the written digits of n have value n |
| `JavaLang.ParseLongOfIntToString` | src/main/java/me/alen_alex/utils/LocationUtils.java:90 | Long.parseLong of Integer.toString(n) is n for any n within 64 bits |
| `JavaLang.ParseIntegralDoubleOfIntToString` | src/main/java/me/alen_alex/utils/LocationUtils.java:90-91 | Double.parseDouble of Integer.toString(n) is n |
| `JavaLang.TrimStart` | src/main/java/me/alen_alex/utils/LocationUtils.java:90-91 | the front trim inside Double.parseDouble: a suffix of the input that is empty or starts above U+0020 |
| `JavaLang.TrimEnd` | src/main/java/me/alen_alex/utils/LocationUtils.java:90-91 | the back trim inside Double.parseDouble: a prefix of the input that is empty or ends above U+0020 |
| `JavaLang.TrimStartDropsOnlyLow` | src/main/java/me/alen_alex/utils/LocationUtils.java:90-91 | the front trim removes only characters at or below U+0020 |
| `JavaLang.TrimEndDropsOnlyLow` | src/main/java/me/alen_alex/utils/LocationUtils.java:90-91 | the back trim removes only characters at or below U+0020 |
| `JavaLang.TrimStartAppend` | src/main/java/me/alen_alex/utils/LocationUtils.java:90-91 | trimming the front of a concatenation keeps the second part whole once the first has a character above U+0020 |
| `JavaLang.TrimPadded` | src/main/java/me/alen_alex/utils/LocationUtils.java:90-91 | trim ignores an extra space on each side |
| `JavaLang.ParseIntegralDoubleIgnoresPadding` | src/main/java/me/alen_alex/utils/LocationUtils.java:90-91 | Double.parseDouble reads a space-padded numeral as the bare one, while Long.parseLong rejects it |
| `JavaLang.TrimUnchanged` | src/main/java/me/alen_alex/utils/LocationUtils.java:90-91 | trimming a string with no surrounding control or space characters changes nothing |
| `JavaLang.NotBlankWitness` | src/main/java/me/alen_alex/utils/LocationUtils.java:82 | one non-whitespace character makes a string non-blank |
| `JavaLang.ConcatNotBlank` | src/main/java/me/alen_alex/utils/MessageUtils.java:86-87 | concatenating anything with non-blank text stays non-blank |
| `MessageUtils.NewFormatter` | src/main/java/me/alen_alex/utils/MessageUtils.java:17-21 | no prefix (null) and prefixing off |
| `MessageUtils.WithPrefix` | src/main/java/me/alen_alex/utils/MessageUtils.java:23-27 | keeps the given prefix and turns prefixing on unconditionally |
| `MessageUtils.PrefixGetterReturnsLastWritten` | src/main/java/me/alen_alex/utils/MessageUtils.java:29-37 | getPluginPrefix is null after the default constructor, and otherwise the prefix last given to the constructor or the setter, blank or not |
| `MessageUtils.SetPluginPrefix` | src/main/java/me/alen_alex/utils/MessageUtils.java:33-47 | the getter then returns exactly the prefix given; prefixing is on iff it is not blank |
| `MessageUtils.SetPluginPrefixOverwrites` | src/main/java/me/alen_alex/utils/MessageUtils.java:33-47 | the last setter call alone decides the state; get after set returns what was set |
| `MessageUtils.Colorize` | src/main/java/me/alen_alex/utils/MessageUtils.java:56-61 | null exactly for blank text, otherwise the '&' colour-code translation of the text |
| `MessageUtils.StripColorCodes` | src/main/java/me/alen_alex/utils/MessageUtils.java:70-75 | null exactly for blank text, otherwise the text with colour codes stripped |
| `MessageUtils.FormatMessage` | src/main/java/me/alen_alex/utils/MessageUtils.java:82-89 | "" for blank text; otherwise the result ends with the message, preceded by prefix + " " when prefixing is on and by nothing otherwise, and it is not blank |
| `MessageUtils.SendColorCachedMessage` | src/main/java/me/alen_alex/utils/MessageUtils.java:99-118 | blank text sends nothing; otherwise exactly one string, the formatted message, is appended, and what the recipient already received is unchanged |
| `MessageUtils.SendMessage` | src/main/java/me/alen_alex/utils/MessageUtils.java:127-145 | blank text sends nothing; otherwise exactly one string, the colour translation of the formatted message, is appended after the unchanged earlier deliveries (colorize never returns null there) |
| `MessageUtils.PrefixConstructorKeepsBlankPrefix` | src/main/java/me/alen_alex/utils/MessageUtils.java:23-27 | with a null prefix "hi" is sent as "null hi", with an empty prefix as " hi", and the state differs from the setter's |
| `MessageUtils.WithPrefixChecked` | src/main/java/me/alen_alex/utils/MessageUtils.java:23-27 | corrected constructor: keeps the prefix and turns prefixing on iff it is not blank |
| `MessageUtils.WithPrefixCheckedFormats` | src/main/java/me/alen_alex/utils/MessageUtils.java:82-89 | with the corrected constructor a non-blank message gets "prefix " in front only for a non-blank prefix |
| `EnumValidator.IndexOf` | src/main/java/me/alen_alex/utils/EnumValidator.java:28-29 | the first position of the name among the declared names, and none iff the name is not declared |
| `EnumValidator.ValueOf` | src/main/java/me/alen_alex/utils/EnumValidator.java:29 | the constant returned has the queried name, at its declared position |
| `EnumValidator.GetIfPresent` | src/main/java/me/alen_alex/utils/EnumValidator.java:27-31 | present iff the (non-null) name is exactly one of the declared names; the constant found has that name; absent otherwise, never an error |
| `EnumValidator.GetMaterialIfPresent` | src/main/java/me/alen_alex/utils/EnumValidator.java:38-42 | present iff the name is a declared Material name; the constant has that name |
| `EnumValidator.GetSoundIfPresent` | src/main/java/me/alen_alex/utils/EnumValidator.java:49-53 | present iff the name is a declared Sound name; the constant has that name |
| `EnumValidator.TypedLookupsAreGeneric` | src/main/java/me/alen_alex/utils/EnumValidator.java:38-53 | the Material and Sound lookups agree with the generic lookup on their catalogues |
| `EnumValidator.LookupFindsTheDeclaredConstant` | src/main/java/me/alen_alex/utils/EnumValidator.java:27-31 | with distinct names, the constant found is the one declared under that name |
| `EnumValidator.LookupIsCaseSensitive` | src/main/java/me/alen_alex/utils/EnumValidator.java:27-31 | "DIAMOND" is found and "diamond" and null are not, in a catalogue declaring "DIAMOND" |

## Left out

- The `toString(Player)`, `toString(Block)` and `toString(Player, BlockFace)` overloads
  (LocationUtils.java:48-70) only fetch a location from a live game object before calling
  `toString(Location)`.
- `getIfWorldExist`, `getMaterialAt`, `isMaterialSimilar`, `isAir` and `isLiquid`
  (LocationUtils.java:113-176) query live world state.
- Floating point:
  - Coordinates are integers and yaw and pitch are already-truncated integers. The `(int)`
    cast of a float, the `long` to `float` conversion of a parsed yaw or pitch, and
    `getBlockX` on a fractional or out-of-`int`-range double are not modelled.
  - For the same reason `isExact` compares integers, so the NaN case of Java's float
    comparison does not arise.
- JavaLang.ParseIntegralDouble: accepts only an optional sign and ASCII digits after trimming.
  `Double.parseDouble` also accepts forms such as `1.5`, `1e3`, `NaN`, `Infinity`, hex
  literals and a trailing `d` or `f`, which the model rejects.
- JavaLang.ParseLong: accepts only ASCII digits. `Character.digit` also accepts other Unicode
  decimal digits.
- JavaLang.IsWhitespace: follows the current Unicode tables. U+180E, whitespace in Java 8's
  older tables, is not treated as whitespace.
- Java `int` arithmetic: `centre ± radius` and `radius * radius` can overflow in Java. The
  model uses unbounded integers.
- The circle scan with a fractional centre is not modelled. The centre is block-aligned, so
  `distanceSquared` is exact.
- The world registry: the server's own name matching (CraftBukkit lower-cases the name) is
  not part of this model. The registry is a set of names matched exactly.
- A location with a null world: the NullPointerException in `toString` and the scans, and the
  IllegalArgumentException from `distanceSquared`.
- Colour translation and stripping belong to Bukkit's `ChatColor`. They are parameters.
- Block predicates are pure functions over coordinates. A Java `Predicate<Block>` may read
  world state or have side effects.
- The scans return an `Iterator<Block>`. The model returns the sequence it iterates over.
- The Player and CommandSender overloads of each send method behave identically. The model
  has one function per pair, and the recipient is the list of strings it received.
- `Configuration.java` (file provisioning, YAML document access, `reloadFile` timing),
  `FileUtils.java` (filesystem, YAML library, asynchronous scheduling), `ChatUtils.java` (a
  single call into `ChatColor`) and `UtilityManager.java` (object wiring) are not part of this
  model.

## Findings

| source | as written | input that shows it | evidently intended | confidence | as-written member | corrected member |
|---|---|---|---|---|---|---|
| src/main/java/me/alen_alex/utils/MessageUtils.java:23-27 | the prefix constructor sets `hasPrefix = true` whatever the prefix | `new MessageUtils(plugin, null)` then `formatMessage("hi")` gives `"null hi"`; with prefix `""` it gives `" hi"` | `hasPrefix` true iff the prefix is not blank, as `setPluginPrefix` does | medium; not executed | `MessageUtils.WithPrefix`, `MessageUtils.PrefixConstructorKeepsBlankPrefix` | `MessageUtils.WithPrefixChecked`, `MessageUtils.WithPrefixCheckedFormats` |

=== FILE: enum_validator.dfy ===
/** EnumValidator: looking up an enum constant by name without ever throwing. An enum type is
    its catalogue of declared constant names, in declaration order; a constant is its ordinal
    and its name.
 */
module EnumValidator {
  import opened Wrappers
  import opened JavaLang

  /** An enum constant: its position in the declaration and its name. */
  datatype Constant = Constant(ordinal: nat, name: string)

  /** An enum class, as the names of its constants in declaration order. */
  datatype EnumType = EnumType(names: seq<string>)

  /** The first position of name among names, or None when it is not there. */
  function IndexOf(names: seq<string>, name: string): (r: Option<nat>)
    ensures r.None? <==> name !in names
    ensures r.Some? ==> r.value < |names| && names[r.value] == name && name !in names[..r.value]
    decreases |names|
  {
    if names == [] then None
    else if names[0] == name then Some(0)
    else
      match IndexOf(names[1..], name)
      case None => None
      case Some(i) =>
        assert names[..i + 1] == [names[0]] + names[1..][..i];
        Some(i + 1)
  }

  /** EnumUtils.isValidEnum: false for null, otherwise whether the name is exactly (case
      included) one of the declared names. */
  predicate IsValidEnum(t: EnumType, name: JString) {
    name.Some? && IndexOf(t.names, name.value).Some?
  }

  /** Enum.valueOf for a declared name. */
  function ValueOf(t: EnumType, name: string): (c: Constant)
    requires name in t.names
    ensures c.name == name && c.ordinal < |t.names| && t.names[c.ordinal] == name
  {
    var i := IndexOf(t.names, name).value;
    Constant(i, t.names[i])
  }

  /** getIfPresent: the constant of that name when there is one, empty otherwise; no name,
      null included, makes it fail. */
  function GetIfPresent(name: JString, t: EnumType): (r: Option<Constant>)
    ensures r.Some? <==> name.Some? && name.value in t.names
    ensures r.Some? ==>
      r.value.name == name.value && r.value.ordinal < |t.names| && t.names[r.value.ordinal] == name.value
  {
    if IsValidEnum(t, name) then Some(ValueOf(t, name.value)) else None
  }

  /** getMaterialIfPresent, over the Material catalogue. */
  function GetMaterialIfPresent(material: JString, materials: EnumType): (r: Option<Constant>)
    ensures r.Some? <==> material.Some? && material.value in materials.names
    ensures r.Some? ==> r.value.name == material.value
  {
    if IsValidEnum(materials, material) then Some(ValueOf(materials, material.value)) else None
  }

  /** getSoundIfPresent, over the Sound catalogue. */
  function GetSoundIfPresent(sound: JString, sounds: EnumType): (r: Option<Constant>)
    ensures r.Some? <==> sound.Some? && sound.value in sounds.names
    ensures r.Some? ==> r.value.name == sound.value
  {
    if IsValidEnum(sounds, sound) then Some(ValueOf(sounds, sound.value)) else None
  }

  /** The two typed lookups are the generic lookup on their own catalogues. */
  lemma TypedLookupsAreGeneric(name: JString, materials: EnumType, sounds: EnumType)
    ensures GetMaterialIfPresent(name, materials) == GetIfPresent(name, materials)
    ensures GetSoundIfPresent(name, sounds) == GetIfPresent(name, sounds)
  {
  }

  /** When the names of a catalogue are distinct, as the names of a Java enum are, the constant
      found is the one declared under that name and no other. */
  lemma LookupFindsTheDeclaredConstant(name: string, t: EnumType, i: nat)
    requires forall j, k :: 0 <= j < k < |t.names| ==> t.names[j] != t.names[k]
    requires i < |t.names| && t.names[i] == name
    ensures GetIfPresent(Some(name), t) == Some(Constant(i, name))
  {
    var r := GetIfPresent(Some(name), t);
    assert t.names[r.value.ordinal] == name;
  }

  /** The lookup is case-sensitive: in a catalogue declaring only "DIAMOND", "diamond" is not found
      and gives an empty result rather than an error. */
  lemma LookupIsCaseSensitive()
    ensures GetIfPresent(Some("DIAMOND"), EnumType(["AIR", "DIAMOND"])) == Some(Constant(1, "DIAMOND"))
    ensures GetIfPresent(Some("diamond"), EnumType(["AIR", "DIAMOND"])) == None
    ensures GetIfPresent(None, EnumType(["AIR", "DIAMOND"])) == None
  {
    LookupFindsTheDeclaredConstant("DIAMOND", EnumType(["AIR", "DIAMOND"]), 1);
  }
}

=== FILE: java_lang.dfy ===
/** The pieces of the Java platform and of Apache commons-lang that the utilities lean on,
    written out so that their edge cases are part of the model:
    - StringUtils.isBlank (null, empty or Character.isWhitespace only),
    - String.trim, String.split with a one-character delimiter, StringJoiner,
    - Integer.toString, Long.parseLong, and the integral subset of Double.parseDouble,
    - string concatenation of a possibly-null reference.
 */
module JavaLang {
  import opened Wrappers

  /** A java.lang.String reference; None is null. */
  type JString = Option<string>

  const LongMin: int := -0x8000_0000_0000_0000
  const LongMax: int := 0x7FFF_FFFF_FFFF_FFFF

  predicate InLongRange(n: int) {
    LongMin <= n <= LongMax
  }

  // ---------------------------------------------------------------------------
  // Blank strings
  // ---------------------------------------------------------------------------

  /** Character.isWhitespace: the Unicode space, line and paragraph separators except the
      non-breaking ones (U+00A0, U+2007, U+202F), plus U+0009..U+000D and U+001C..U+001F. */
  predicate IsWhitespace(c: char) {
    || '\U{0009}' <= c <= '\U{000D}'
    || '\U{001C}' <= c <= '\U{0020}'
    || c == '\U{1680}'
    || '\U{2000}' <= c <= '\U{2006}'
    || '\U{2008}' <= c <= '\U{200A}'
    || c == '\U{2028}' || c == '\U{2029}' || c == '\U{205F}' || c == '\U{3000}'
  }

  /** StringUtils.isBlank on a non-null string: every character is whitespace (so "" is blank). */
  predicate Blank(s: string) {
    forall i :: 0 <= i < |s| ==> IsWhitespace(s[i])
  }

  /** StringUtils.isBlank: null, empty, or whitespace only. */
  predicate IsBlank(s: JString) {
    s.None? || Blank(s.value)
  }

  /** A string holding one character that is not whitespace is not blank, whatever surrounds it. */
  lemma NotBlankWitness(s: string, i: nat)
    requires i < |s| && !IsWhitespace(s[i])
    ensures !Blank(s) && !IsBlank(Some(s))
  {
  }

  /** Concatenation with a non-blank part is not blank. */
  lemma {:induction false} ConcatNotBlank(a: string, b: string)
    requires !Blank(b)
    ensures !Blank(a + b) && !Blank(b + a)
  {
    var i :| 0 <= i < |b| && !IsWhitespace(b[i]);
    assert (a + b)[|a| + i] == b[i];
    assert (b + a)[i] == b[i];
  }

  /** The text that Java's string concatenation inserts for a reference: "null" for null. */
  function ConcatText(s: JString): string {
    match s
    case None => "null"
    case Some(v) => v
  }

  // ---------------------------------------------------------------------------
  // String.trim
  // ---------------------------------------------------------------------------

  function TrimStart(s: string): (r: string)
    ensures r == [] || r[0] > ' '
    ensures |r| <= |s| && r == s[|s| - |r|..]
    decreases |s|
  {
    if s != [] && s[0] <= ' ' then TrimStart(s[1..]) else s
  }

  function TrimEnd(s: string): (r: string)
    ensures r == [] || r[|r| - 1] > ' '
    ensures |r| <= |s| && r == s[..|r|]
    decreases |s|
  {
    if s != [] && s[|s| - 1] <= ' ' then TrimEnd(s[..|s| - 1]) else s
  }

  /** TrimStart drops only characters at or below U+0020. */
  lemma {:induction false} TrimStartDropsOnlyLow(s: string)
    ensures forall i :: 0 <= i < |s| - |TrimStart(s)| ==> s[i] <= ' '
    decreases |s|
  {
    if s != [] && s[0] <= ' ' {
      TrimStartDropsOnlyLow(s[1..]);
    }
  }

  /** TrimEnd drops only characters at or below U+0020. */
  lemma {:induction false} TrimEndDropsOnlyLow(s: string)
    ensures forall i :: |TrimEnd(s)| <= i < |s| ==> s[i] <= ' '
    decreases |s|
  {
    if s != [] && s[|s| - 1] <= ' ' {
      TrimEndDropsOnlyLow(s[..|s| - 1]);
    }
  }

  /** String.trim: drops every leading and trailing character at or below U+0020. */
  function Trim(s: string): string {
    TrimEnd(TrimStart(s))
  }

  lemma TrimUnchanged(s: string)
    requires s != [] && s[0] > ' ' && s[|s| - 1] > ' '
    ensures Trim(s) == s
  {
  }

  // ---------------------------------------------------------------------------
  // String.split(d) and StringJoiner(d)
  // ---------------------------------------------------------------------------

  /** StringJoiner with delimiter d: the fields separated by d ("" for no field). */
  function Join(fields: seq<string>, d: char): string
    decreases |fields|
  {
    if fields == [] then ""
    else if |fields| == 1 then fields[0]
    else fields[0] + [d] + Join(fields[1..], d)
  }

  /** Every piece of s between occurrences of d, empty pieces included: String.split(d, -1). */
  function Pieces(s: string, d: char): (r: seq<string>)
    ensures |r| >= 1
    ensures forall i :: 0 <= i < |r| ==> d !in r[i]
    ensures Join(r, d) == s
    decreases |s|
  {
    if s == [] then [""]
    else
      var rest := Pieces(s[1..], d);
      if s[0] == d then
        assert Join([""] + rest, d) == [d] + Join(rest, d);
        [""] + rest
      else
        var r := [[s[0]] + rest[0]] + rest[1..];
        assert r[1..] == rest[1..];
        assert Join(r, d) == [s[0]] + Join(rest, d);
        r
  }

  /** Removes the empty pieces at the end of a split, as String.split with limit 0 does. */
  function DropTrailingEmpty(xs: seq<string>): (r: seq<string>)
    ensures r <= xs
    ensures r == [] || r[|r| - 1] != ""
    ensures forall i :: |r| <= i < |xs| ==> xs[i] == ""
    decreases |xs|
  {
    if xs != [] && xs[|xs| - 1] == "" then DropTrailingEmpty(xs[..|xs| - 1]) else xs
  }

  /** String.split on a one-character delimiter: the whole string when d does not occur;
      otherwise every piece, with the empty pieces at the end removed (a leading empty piece
      stays, and a string of delimiters only gives no piece at all). */
  function Split(s: string, d: char): (r: seq<string>)
    ensures forall i :: 0 <= i < |r| ==> d !in r[i]
    ensures d !in s ==> r == [s]
    ensures d in s ==> r == [] || r[|r| - 1] != ""
    ensures d in s ==> r <= Pieces(s, d)
    ensures d in s ==> forall i :: |r| <= i < |Pieces(s, d)| ==> Pieces(s, d)[i] == ""
  {
    if d !in s then [s] else DropTrailingEmpty(Pieces(s, d))
  }

  lemma {:induction false} PiecesWithoutDelimiter(a: string, d: char)
    requires d !in a
    ensures Pieces(a, d) == [a]
    decreases |a|
  {
    if a != [] {
      PiecesWithoutDelimiter(a[1..], d);
      assert [a[0]] + a[1..] == a;
    }
  }

  lemma {:induction false} PiecesAfterField(a: string, b: string, d: char)
    requires d !in a
    ensures Pieces(a + [d] + b, d) == [a] + Pieces(b, d)
    decreases |a|
  {
    var s := a + [d] + b;
    if a == [] {
      assert s[1..] == b;
    } else {
      assert s[1..] == a[1..] + [d] + b;
      PiecesAfterField(a[1..], b, d);
      assert [a[0]] + a[1..] == a;
    }
  }

  lemma {:induction false} PiecesOfJoin(fields: seq<string>, d: char)
    requires |fields| >= 1
    requires forall i :: 0 <= i < |fields| ==> d !in fields[i]
    ensures Pieces(Join(fields, d), d) == fields
    decreases |fields|
  {
    if |fields| == 1 {
      PiecesWithoutDelimiter(fields[0], d);
    } else {
      PiecesOfJoin(fields[1..], d);
      PiecesAfterField(fields[0], Join(fields[1..], d), d);
      assert [fields[0]] + fields[1..] == fields;
    }
  }

  /** Splitting what StringJoiner produced gives the fields back, provided no field holds the
      delimiter and the last field is not empty (the one-field case needs neither). */
  lemma {:induction false} SplitOfJoin(fields: seq<string>, d: char)
    requires |fields| >= 1
    requires forall i :: 0 <= i < |fields| ==> d !in fields[i]
    requires |fields| == 1 || fields[|fields| - 1] != ""
    ensures Split(Join(fields, d), d) == fields
  {
    var s := Join(fields, d);
    if |fields| == 1 {
    } else {
      assert s == fields[0] + [d] + Join(fields[1..], d);
      assert s[|fields[0]|] == d;
      PiecesOfJoin(fields, d);
    }
  }

  // ---------------------------------------------------------------------------
  // Decimal numbers
  // ---------------------------------------------------------------------------

  predicate IsDigit(c: char) {
    '0' <= c <= '9'
  }

  predicate AllDigits(s: string) {
    forall i :: 0 <= i < |s| ==> IsDigit(s[i])
  }

  function DigitChar(d: nat): (c: char)
    requires d < 10
    ensures IsDigit(c)
  {
    ('0' as int + d) as char
  }

  function DigitValue(c: char): (d: nat)
    requires IsDigit(c)
    ensures d < 10 && DigitChar(d) == c
  {
    c as int - '0' as int
  }

  /** The value of a string of decimal digits, most significant first. */
  function DigitsValue(s: string): nat
    requires AllDigits(s)
    decreases |s|
  {
    if s == [] then 0 else DigitsValue(s[..|s| - 1]) * 10 + DigitValue(s[|s| - 1])
  }

  /** Decimal digits of n without leading zeros. */
  function NatToString(n: nat): (r: string)
    ensures |r| >= 1 && AllDigits(r)
    ensures r[0] == '0' ==> n == 0
    decreases n
  {
    if n < 10 then [DigitChar(n)] else NatToString(n / 10) + [DigitChar(n % 10)]
  }

  /** Integer.toString / String.valueOf(int): a minus sign for negatives, then the digits. */
  function IntToString(n: int): (r: string)
    ensures |r| >= 1 && r[0] > ' ' && r[|r| - 1] > ' '
    ensures r[0] == '-' || IsDigit(r[0])
    ensures forall i :: 0 < i < |r| ==> IsDigit(r[i])
    ensures r[0] == '-' <==> n < 0
  {
    if n < 0 then ['-'] + NatToString(-n) else NatToString(n)
  }

  /** An optional '+' or '-' followed by at least one ASCII decimal digit. */
  function ParseSigned(s: string): Option<int> {
    if s == [] then None
    else if s[0] == '-' || s[0] == '+' then
      var digits := s[1..];
      if digits != [] && AllDigits(digits) then
        var v: int := if s[0] == '-' then 0 - DigitsValue(digits) as int else DigitsValue(digits);
        Some(v)
      else None
    else if AllDigits(s) then Some(DigitsValue(s))
    else None
  }

  /** Long.parseLong(s): a signed decimal numeral whose value fits in 64 bits; None stands for
      the NumberFormatException thrown otherwise. */
  function ParseLong(s: string): (r: Option<int>)
    ensures r.Some? ==> InLongRange(r.value)
  {
    match ParseSigned(s)
    case Some(v) => if InLongRange(v) then Some(v) else None
    case None => None
  }

  /** Double.parseDouble(s) restricted to integral decimal numerals: surrounding characters at or
      below U+0020 are trimmed, then a signed decimal numeral is read. None stands for the
      NumberFormatException. */
  function ParseIntegralDouble(s: string): Option<int> {
    ParseSigned(Trim(s))
  }

  lemma {:induction false} DigitsOfNatToString(n: nat)
    ensures DigitsValue(NatToString(n)) == n
    decreases n
  {
    var s := NatToString(n);
    if n >= 10 {
      DigitsOfNatToString(n / 10);
      assert s[..|s| - 1] == NatToString(n / 10);
    }
  }

  /** Reading back what Integer.toString wrote gives the number. */
  lemma ParseSignedOfIntToString(n: int)
    ensures ParseSigned(IntToString(n)) == Some(n)
  {
    DigitsOfNatToString(if n < 0 then -n else n);
    if n < 0 {
      assert IntToString(n)[1..] == NatToString(-n);
    }
  }

  lemma ParseLongOfIntToString(n: int)
    requires InLongRange(n)
    ensures ParseLong(IntToString(n)) == Some(n)
  {
    ParseSignedOfIntToString(n);
  }

  lemma ParseIntegralDoubleOfIntToString(n: int)
    ensures ParseIntegralDouble(IntToString(n)) == Some(n)
  {
    TrimUnchanged(IntToString(n));
    ParseSignedOfIntToString(n);
  }
  /** Trimming the front of a concatenation: once the first part has a character above U+0020,
      the second part is kept whole; otherwise the first part vanishes entirely. */
  lemma {:induction false} TrimStartAppend(s: string, t: string)
    ensures TrimStart(s + t) == if TrimStart(s) != [] then TrimStart(s) + t else TrimStart(t)
    decreases |s|
  {
    if s == [] {
      assert s + t == t;
    } else if s[0] <= ' ' {
      assert (s + t)[1..] == s[1..] + t;
      TrimStartAppend(s[1..], t);
    }
  }

  /** String.trim ignores one extra space on each side. */
  lemma TrimPadded(s: string)
    ensures Trim([' '] + s + [' ']) == Trim(s)
  {
    var padded := [' '] + s + [' '];
    assert padded[1..] == s + [' '];
    assert TrimStart(padded) == TrimStart(s + [' ']);
    TrimStartAppend(s, [' ']);
    if TrimStart(s) != [] {
      var u := TrimStart(s);
      assert (u + [' '])[..|u + [' ']| - 1] == u;
    } else {
      assert TrimStart([' ']) == [];
    }
  }

  /** Double.parseDouble trims: spaces around a numeral do not change what it reads, while
      Long.parseLong rejects the same padded text. */
  lemma ParseIntegralDoubleIgnoresPadding(s: string)
    ensures ParseIntegralDouble([' '] + s + [' ']) == ParseIntegralDouble(s)
    ensures ParseLong([' '] + s + [' ']) == None
  {
    var padded := [' '] + s + [' '];
    TrimPadded(s);
    assert padded[0] == ' ' && !IsDigit(padded[0]);
    assert !AllDigits(padded);
    assert ParseSigned(padded) == None;
  }
}

=== FILE: lattice.dfy ===
/** Integer lattice points and the enumerations the region scans are built from: the three nested
    `for` loops become Column (innermost, z), Layer (y) and Cuboid (outermost, x), and the
    `if (...) blocks.add(block)` filters become Filter.
 */
module Lattice {

  /** A block, reduced to its integer coordinates. */
  datatype Block = Block(x: int, y: int, z: int)

  /** Strict lexicographic order on (x, y, z): the order in which the nested loops visit blocks. */
  predicate Before(a: Block, b: Block) {
    a.x < b.x || (a.x == b.x && (a.y < b.y || (a.y == b.y && a.z < b.z)))
  }

  /** Strictly ascending in scan order, hence without repetitions. */
  predicate Ascending(s: seq<Block>) {
    forall i, j :: 0 <= i < j < |s| ==> Before(s[i], s[j])
  }

  predicate Increasing(xs: seq<int>) {
    forall i, j :: 0 <= i < j < |xs| ==> xs[i] < xs[j]
  }

  /** lo, lo + 1, ..., hi: the values `for (int v = lo; v <= hi; v++)` visits (none when lo > hi). */
  function Interval(lo: int, hi: int): seq<int> {
    seq(if lo <= hi then hi - lo + 1 else 0, i => lo + i)
  }

  lemma IntervalFacts(lo: int, hi: int)
    ensures |Interval(lo, hi)| == if lo <= hi then hi - lo + 1 else 0
    ensures Increasing(Interval(lo, hi))
    ensures forall v :: v in Interval(lo, hi) <==> lo <= v <= hi
  {
    var r := Interval(lo, hi);
    forall v | lo <= v <= hi
      ensures v in r
    {
      assert r[v - lo] == v;
    }
  }

  /** The innermost loop: one block per z, at a fixed x and y. */
  function Column(x: int, y: int, zs: seq<int>): seq<Block> {
    seq(|zs|, k requires 0 <= k < |zs| => Block(x, y, zs[k]))
  }

  lemma ColumnMembers(x: int, y: int, zs: seq<int>)
    ensures forall b :: b in Column(x, y, zs) <==> b.x == x && b.y == y && b.z in zs
  {
    var c := Column(x, y, zs);
    forall b: Block | b.x == x && b.y == y && b.z in zs
      ensures b in c
    {
      var k :| 0 <= k < |zs| && zs[k] == b.z;
      assert c[k] == b;
    }
  }

  /** The middle loop: the column of every y in turn. */
  function Layer(x: int, ys: seq<int>, zs: seq<int>): (r: seq<Block>)
    ensures |r| == |ys| * |zs|
    ensures forall b :: b in r <==> b.x == x && b.y in ys && b.z in zs
    decreases |ys|
  {
    if ys == [] then []
    else
      var rest := Layer(x, ys[1..], zs);
      assert |ys| * |zs| == |zs| + (|ys| - 1) * |zs|;
      assert forall v :: v in ys <==> v == ys[0] || v in ys[1..];
      ColumnMembers(x, ys[0], zs);
      Column(x, ys[0], zs) + rest
  }

  /** The outer loop: the layer of every x in turn. */
  function Cuboid(xs: seq<int>, ys: seq<int>, zs: seq<int>): (r: seq<Block>)
    ensures |r| == |xs| * (|ys| * |zs|)
    ensures forall b :: b in r <==> b.x in xs && b.y in ys && b.z in zs
    decreases |xs|
  {
    if xs == [] then []
    else
      var rest := Cuboid(xs[1..], ys, zs);
      assert |xs| * (|ys| * |zs|) == |ys| * |zs| + (|xs| - 1) * (|ys| * |zs|);
      assert forall v :: v in xs <==> v == xs[0] || v in xs[1..];
      Layer(xs[0], ys, zs) + rest
  }

  lemma AscendingConcat(a: seq<Block>, b: seq<Block>)
    requires Ascending(a) && Ascending(b)
    requires forall u, v :: u in a && v in b ==> Before(u, v)
    ensures Ascending(a + b)
  {
    var s := a + b;
    forall i, j | 0 <= i < j < |s|
      ensures Before(s[i], s[j])
    {
      if j < |a| {
        assert s[i] == a[i] && s[j] == a[j];
      } else if i >= |a| {
        assert s[i] == b[i - |a|] && s[j] == b[j - |a|];
      } else {
        assert s[i] == a[i] && s[j] == b[j - |a|];
      }
    }
  }

  lemma IncreasingTail(xs: seq<int>)
    requires xs != [] && Increasing(xs)
    ensures Increasing(xs[1..])
    ensures forall v :: v in xs[1..] ==> xs[0] < v
  {
  }

  lemma {:induction false} LayerAscending(x: int, ys: seq<int>, zs: seq<int>)
    requires Increasing(ys) && Increasing(zs)
    ensures Ascending(Layer(x, ys, zs))
    decreases |ys|
  {
    if ys != [] {
      IncreasingTail(ys);
      LayerAscending(x, ys[1..], zs);
      var col := Column(x, ys[0], zs);
      var rest := Layer(x, ys[1..], zs);
      forall u, v | u in col && v in rest
        ensures Before(u, v)
      {
        assert v.y in ys[1..];
      }
      AscendingConcat(col, rest);
    }
  }

  /** When every axis is visited in increasing order, the blocks come in scan order. */
  lemma {:induction false} CuboidAscending(xs: seq<int>, ys: seq<int>, zs: seq<int>)
    requires Increasing(xs) && Increasing(ys) && Increasing(zs)
    ensures Ascending(Cuboid(xs, ys, zs))
    decreases |xs|
  {
    if xs != [] {
      IncreasingTail(xs);
      CuboidAscending(xs[1..], ys, zs);
      LayerAscending(xs[0], ys, zs);
      var layer := Layer(xs[0], ys, zs);
      var rest := Cuboid(xs[1..], ys, zs);
      forall u, v | u in layer && v in rest
        ensures Before(u, v)
      {
        assert v.x in xs[1..];
      }
      AscendingConcat(layer, rest);
    }
  }

  // ---------------------------------------------------------------------------
  // Filtering and subsequences
  // ---------------------------------------------------------------------------

  /** The elements of s that satisfy p, in their original order. */
  function Filter(s: seq<Block>, p: Block -> bool): (r: seq<Block>)
    ensures |r| <= |s|
    ensures forall v :: v in r <==> v in s && p(v)
    decreases |s|
  {
    if s == [] then []
    else
      assert forall v :: v in s <==> v == s[0] || v in s[1..];
      (if p(s[0]) then [s[0]] else []) + Filter(s[1..], p)
  }

  /** a can be obtained from b by deleting elements. */
  predicate IsSubsequence(a: seq<Block>, b: seq<Block>)
    decreases |b|
  {
    if a == [] then true
    else if b == [] then false
    else (a[0] == b[0] && IsSubsequence(a[1..], b[1..])) || IsSubsequence(a, b[1..])
  }

  /** Filtering by a stronger condition keeps an ordered subsequence of filtering by a weaker one. */
  lemma {:induction false} FilterStrongerIsSubsequence(s: seq<Block>, p: Block -> bool, q: Block -> bool)
    requires forall v :: q(v) ==> p(v)
    ensures IsSubsequence(Filter(s, q), Filter(s, p))
    decreases |s|
  {
    if s != [] {
      FilterStrongerIsSubsequence(s[1..], p, q);
      var a := Filter(s, q);
      var b := Filter(s, p);
      if q(s[0]) {
        assert a[0] == b[0] && a[1..] == Filter(s[1..], q) && b[1..] == Filter(s[1..], p);
      } else if p(s[0]) {
        assert a == Filter(s[1..], q) && b[1..] == Filter(s[1..], p);
        if a != [] {
          assert b != [] && IsSubsequence(a, b[1..]);
        }
      } else {
        assert a == Filter(s[1..], q) && b == Filter(s[1..], p);
      }
    }
  }

  lemma FilterIsSubsequence(s: seq<Block>, p: Block -> bool)
    ensures IsSubsequence(Filter(s, p), s)
  {
    var all := (v: Block) => true;
    FilterStrongerIsSubsequence(s, all, p);
    FilterAll(s, all);
  }

  lemma {:induction false} FilterAll(s: seq<Block>, p: Block -> bool)
    requires forall v :: p(v)
    ensures Filter(s, p) == s
    decreases |s|
  {
    if s != [] {
      FilterAll(s[1..], p);
      assert [s[0]] + s[1..] == s;
    }
  }

  /** Filtering twice is filtering once by the conjunction, tested in the same order. */
  lemma {:induction false} FilterFilter(s: seq<Block>, p: Block -> bool, q: Block -> bool, pq: Block -> bool)
    requires forall v :: pq(v) == (p(v) && q(v))
    ensures Filter(Filter(s, p), q) == Filter(s, pq)
    decreases |s|
  {
    if s != [] {
      FilterFilter(s[1..], p, q, pq);
      if p(s[0]) {
        assert Filter(s, p) == [s[0]] + Filter(s[1..], p);
        assert Filter(s, p)[1..] == Filter(s[1..], p);
      } else {
        assert Filter(s, p) == Filter(s[1..], p);
      }
    }
  }

  /** Filtering preserves the scan order. */
  lemma {:induction false} FilterAscending(s: seq<Block>, p: Block -> bool)
    requires Ascending(s)
    ensures Ascending(Filter(s, p))
    decreases |s|
  {
    if s != [] {
      var rest := Filter(s[1..], p);
      FilterAscending(s[1..], p);
      if p(s[0]) {
        forall u, v | u in [s[0]] && v in rest
          ensures Before(u, v)
        {
          var k :| 0 <= k < |s[1..]| && s[1..][k] == v;
          assert s[k + 1] == v;
        }
        AscendingConcat([s[0]], rest);
      }
    }
  }

  /** A filter that rejects some element of s is strictly shorter than s. */
  lemma {:induction false} FilterDropsRejected(s: seq<Block>, p: Block -> bool, v: Block)
    requires v in s && !p(v)
    ensures |Filter(s, p)| < |s|
    decreases |s|
  {
    if s[0] != v {
      FilterDropsRejected(s[1..], p, v);
    }
  }

  /** The head of an ascending sequence comes before each of its other elements. */
  lemma AscendingHeadFirst(s: seq<Block>)
    requires s != [] && Ascending(s)
    ensures forall v :: v in s ==> v == s[0] || Before(s[0], v)
  {
  }

  /** An ascending sequence is fixed by its set of elements: two ascending sequences with the same
      elements are equal. */
  lemma {:induction false} AscendingUnique(a: seq<Block>, b: seq<Block>)
    requires Ascending(a) && Ascending(b)
    requires forall v :: v in a <==> v in b
    ensures a == b
    decreases |a|
  {
    if a != [] {
      assert a[0] in b;
    }
    if b != [] {
      assert b[0] in a;
    }
    if a != [] && b != [] {
      AscendingHeadFirst(a);
      AscendingHeadFirst(b);
      assert a[0] == b[0];
      forall v
        ensures v in a[1..] <==> v in b[1..]
      {
        if v in a[1..] {
          var k :| 0 <= k < |a[1..]| && a[1..][k] == v;
          assert a[k + 1] == v && Before(a[0], v);
          assert v in b;
          var m :| 0 <= m < |b| && b[m] == v;
          assert b[1..][m - 1] == v;
        }
        if v in b[1..] {
          var k :| 0 <= k < |b[1..]| && b[1..][k] == v;
          assert b[k + 1] == v && Before(b[0], v);
          assert v in a;
          var m :| 0 <= m < |a| && a[m] == v;
          assert a[1..][m - 1] == v;
        }
      }
      AscendingUnique(a[1..], b[1..]);
      assert a == [a[0]] + a[1..] && b == [b[0]] + b[1..];
    }
  }
}

=== FILE: location_utils.dfy ===
/** LocationUtils: the `world/x/y/z/yaw/pitch` string form of a location, the two location
    comparisons, and the square (cube) and circle (ball) region scans around a centre.
    Worlds are reduced to their names and the server's world registry to the set of loaded
    world names; blocks are reduced to coordinate triples.
 */
module LocationUtils {
  import opened Wrappers
  import opened JavaLang
  import opened Lattice

  /** The field separator of the string form. */
  const Delimiter: char := '/'

  /** A location as this class reads it: its world's name, its block coordinates, and its yaw and
      pitch already truncated to integers. */
  datatype Location = Location(world: string, x: int, y: int, z: int, yaw: int, pitch: int)

  /** The exceptions parseLocation lets escape. */
  datatype ParseError =
    | BlankInput                  // IllegalArgumentException: null, empty or whitespace-only input
    | WorldNotFound(name: string) // NullPointerException: field 0 names no loaded world
    | MissingField(index: nat)    // ArrayIndexOutOfBoundsException reading locationArgs[index]
    | NotANumber(index: nat)      // NumberFormatException parsing locationArgs[index]

  /** The names of the worlds the server has loaded. */
  type WorldRegistry = set<string>

  /** How many fields a parse reads: all six with orientation, the first four without. */
  function FieldsRead(parseExact: bool): nat {
    if parseExact then 6 else 4
  }

  // ---------------------------------------------------------------------------
  // Serialisation
  // ---------------------------------------------------------------------------

  /** The six fields toString writes, in order. */
  function Fields(loc: Location): seq<string> {
    [loc.world, IntToString(loc.x), IntToString(loc.y), IntToString(loc.z),
     IntToString(loc.yaw), IntToString(loc.pitch)]
  }

  lemma FieldsSplitBack(loc: Location)
    ensures Join(Fields(loc), Delimiter)[|loc.world|] == Delimiter
    ensures Delimiter !in loc.world ==> Split(Join(Fields(loc), Delimiter), Delimiter) == Fields(loc)
    ensures Delimiter !in loc.world ==> Pieces(Join(Fields(loc), Delimiter), Delimiter) == Fields(loc)
  {
    var f := Fields(loc);
    assert Join(f, Delimiter) == loc.world + [Delimiter] + Join(f[1..], Delimiter);
    if Delimiter !in loc.world {
      forall i | 0 <= i < |f|
        ensures Delimiter !in f[i]
      {
        if i > 0 {
          assert f[i] == IntToString([loc.x, loc.y, loc.z, loc.yaw, loc.pitch][i - 1]);
        }
      }
      SplitOfJoin(f, Delimiter);
      PiecesOfJoin(f, Delimiter);
    }
  }

  /** toString(Location): the world name, the block x, y, z and the truncated yaw and pitch,
      joined by '/'. When the world name holds no '/', the result has exactly five '/'
      separators, one between consecutive fields, so cutting it at every '/' (empty pieces
      included) and splitting it on '/' both give exactly those six fields back; the result is
      never blank. */
  function ToString(loc: Location): (r: string)
    ensures Delimiter !in loc.world ==>
      Split(r, Delimiter) ==
        [loc.world, IntToString(loc.x), IntToString(loc.y), IntToString(loc.z),
         IntToString(loc.yaw), IntToString(loc.pitch)]
    ensures Delimiter !in loc.world ==> Pieces(r, Delimiter) == Fields(loc)
    ensures !IsBlank(Some(r))
  {
    FieldsSplitBack(loc);
    var r := Join(Fields(loc), Delimiter);
    NotBlankWitness(r, |loc.world|);
    r
  }

  // ---------------------------------------------------------------------------
  // Parsing
  // ---------------------------------------------------------------------------

  /** Double.parseDouble(locationArgs[i]), or the exception evaluating it throws. */
  function CoordinateField(args: seq<string>, i: nat): (r: Result<int, ParseError>)
    ensures r.Failure? ==> r.error == (if i >= |args| then MissingField(i) else NotANumber(i))
    ensures i < |args| ==> (r.Success? <==> ParseIntegralDouble(args[i]).Some?)
    ensures r.Success? ==> i < |args| && ParseIntegralDouble(args[i]) == Some(r.value)
  {
    if i >= |args| then Failure(MissingField(i))
    else match ParseIntegralDouble(args[i])
      case Some(v) => Success(v)
      case None => Failure(NotANumber(i))
  }

  /** Long.parseLong(locationArgs[i]), or the exception evaluating it throws. */
  function OrientationField(args: seq<string>, i: nat): (r: Result<int, ParseError>)
    ensures r.Failure? ==> r.error == (if i >= |args| then MissingField(i) else NotANumber(i))
    ensures i < |args| ==> (r.Success? <==> ParseLong(args[i]).Some?)
    ensures r.Success? ==> i < |args| && ParseLong(args[i]) == Some(r.value)
  {
    if i >= |args| then Failure(MissingField(i))
    else match ParseLong(args[i])
      case Some(v) => Success(v)
      case None => Failure(NotANumber(i))
  }

  /** Field j is present and is a number of the kind read there: Double.parseDouble for the
      block coordinates (fields 1 to 3), Long.parseLong for yaw and pitch (fields 4 and 5). */
  predicate FieldParses(args: seq<string>, j: nat) {
    && j < |args|
    && (if j <= 3 then ParseIntegralDouble(args[j]).Some? else ParseLong(args[j]).Some?)
  }

  /** Every field from lo up to (not including) hi is present and parses: the fields read
      before the one a failure reports. */
  predicate NumericBetween(args: seq<string>, lo: nat, hi: nat) {
    forall j :: lo <= j < hi ==> FieldParses(args, j)
  }

  /** The x, y and z of `new Location(world, x, y, z, ...)`: fields 1, 2 and 3 in that order. */
  function ReadCoordinates(args: seq<string>): (r: Result<Block, ParseError>)
    requires |args| >= 1
    ensures r.Success? ==> |args| >= 4
    ensures r.Failure? && r.error.MissingField? ==> r.error.index == |args| < 4
    ensures r.Failure? && r.error.NotANumber? ==>
      1 <= r.error.index <= 3 && r.error.index < |args| &&
      ParseIntegralDouble(args[r.error.index]).None?
    ensures r.Failure? ==> r.error.MissingField? || r.error.NotANumber?
    ensures r.Failure? && r.error.index >= 2 ==> FieldParses(args, 1)
    ensures r.Failure? && r.error.index >= 3 ==> FieldParses(args, 2)
    ensures r.Success? ==>
      && ParseIntegralDouble(args[1]) == Some(r.value.x)
      && ParseIntegralDouble(args[2]) == Some(r.value.y)
      && ParseIntegralDouble(args[3]) == Some(r.value.z)
  {
    var x := CoordinateField(args, 1);
    if x.Failure? then Failure(x.error)
    else
      assert FieldParses(args, 1);
      var y := CoordinateField(args, 2);
      if y.Failure? then Failure(y.error)
      else
        assert FieldParses(args, 2);
        var z := CoordinateField(args, 3);
        if z.Failure? then Failure(z.error)
        else Success(Block(x.value, y.value, z.value))
  }

  /** The yaw and pitch of the exact parse: fields 4 and 5 in that order. */
  function ReadOrientation(args: seq<string>): (r: Result<(int, int), ParseError>)
    requires |args| >= 4
    ensures r.Success? ==> |args| >= 6
    ensures r.Failure? && r.error.MissingField? ==> r.error.index == |args| < 6
    ensures r.Failure? && r.error.NotANumber? ==>
      4 <= r.error.index <= 5 && r.error.index < |args| && ParseLong(args[r.error.index]).None?
    ensures r.Failure? ==> r.error.MissingField? || r.error.NotANumber?
    ensures r.Failure? && r.error.index >= 5 ==> FieldParses(args, 4)
    ensures r.Success? ==> ParseLong(args[4]) == Some(r.value.0) && ParseLong(args[5]) == Some(r.value.1)
  {
    var yaw :- OrientationField(args, 4);
    var pitch :- OrientationField(args, 5);
    Success((yaw, pitch))
  }

  /** Field i is one the parse reads, it is present, and it is not a number of the kind read
      there: Double.parseDouble for the block coordinates, Long.parseLong for yaw and pitch. */
  predicate NotANumberAt(args: seq<string>, i: nat, parseExact: bool) {
    && 1 <= i < FieldsRead(parseExact) && i < |args|
    && (if i <= 3 then ParseIntegralDouble(args[i]).None? else ParseLong(args[i]).None?)
  }

  /** loc is what the parse builds from args: the world is field 0, x, y and z are what
      Double.parseDouble reads from fields 1 to 3, and yaw and pitch are what Long.parseLong reads
      from fields 4 and 5 when they are read, 0 otherwise. */
  predicate ReadFrom(args: seq<string>, loc: Location, parseExact: bool) {
    && |args| >= FieldsRead(parseExact)
    && loc.world == args[0]
    && ParseIntegralDouble(args[1]) == Some(loc.x)
    && ParseIntegralDouble(args[2]) == Some(loc.y)
    && ParseIntegralDouble(args[3]) == Some(loc.z)
    && (if parseExact then ParseLong(args[4]) == Some(loc.yaw) && ParseLong(args[5]) == Some(loc.pitch)
        else loc.yaw == 0 && loc.pitch == 0)
  }

  /** What parseLocation does once the input has been split: locationArgs[0] is looked up as a
      world, then fields 1..3 (and 4..5 when parseExact) are read left to right, so the first
      missing or non-numeric field is the one reported. */
  function ParseFields(args: seq<string>, parseExact: bool, worlds: WorldRegistry)
    : (r: Result<Location, ParseError>)
    ensures r.Success? ==> |args| >= FieldsRead(parseExact) && r.value.world == args[0] && args[0] in worlds
    ensures r.Success? && !parseExact ==> r.value.yaw == 0 && r.value.pitch == 0
    ensures r.Failure? && r.error.WorldNotFound? ==> r.error.name !in worlds
    ensures |args| >= 1 && args[0] !in worlds ==> r == Failure(WorldNotFound(args[0]))
    ensures r.Failure? && r.error.WorldNotFound? ==> |args| >= 1 && r.error.name == args[0]
    ensures r.Failure? && r.error.MissingField? ==> r.error.index == |args| < FieldsRead(parseExact)
    ensures r.Failure? && r.error.NotANumber? ==> NotANumberAt(args, r.error.index, parseExact)
    ensures r.Failure? && (r.error.MissingField? || r.error.NotANumber?) ==>
      NumericBetween(args, 1, r.error.index)
    ensures r.Success? ==> ReadFrom(args, r.value, parseExact)
    ensures r != Failure(BlankInput)
  {
    if |args| == 0 then Failure(MissingField(0))
    else if args[0] !in worlds then Failure(WorldNotFound(args[0]))
    else
      var b := ReadCoordinates(args);
      if b.Failure? then
        CoordinatesFailFirst(args);
        Failure(b.error)
      else if parseExact then
        var orientation := ReadOrientation(args);
        if orientation.Failure? then
          OrientationFailsFirst(args);
          Failure(orientation.error)
        else
          var yaw, pitch := orientation.value.0, orientation.value.1;
          Success(Location(args[0], b.value.x, b.value.y, b.value.z, yaw, pitch))
      else
        Success(Location(args[0], b.value.x, b.value.y, b.value.z, 0, 0))
  }

  /** When reading the block coordinates fails, every coordinate before the reported one was
      read successfully. */
  lemma CoordinatesFailFirst(args: seq<string>)
    requires |args| >= 1 && ReadCoordinates(args).Failure?
    ensures NumericBetween(args, 1, ReadCoordinates(args).error.index)
  {
    var i := ReadCoordinates(args).error.index;
    forall j | 1 <= j < i
      ensures FieldParses(args, j)
    {
      assert j == 1 || j == 2;
    }
  }

  /** When the coordinates are read but reading yaw or pitch fails, every field before the
      reported one was read successfully. */
  lemma OrientationFailsFirst(args: seq<string>)
    requires |args| >= 4 && ReadCoordinates(args).Success? && ReadOrientation(args).Failure?
    ensures NumericBetween(args, 1, ReadOrientation(args).error.index)
  {
    var i := ReadOrientation(args).error.index;
    forall j | 1 <= j < i
      ensures FieldParses(args, j)
    {
      assert j <= 4;
    }
  }

  /** The input is not blank and its first '/'-separated field names no loaded world. */
  predicate WorldMissing(input: JString, worlds: WorldRegistry) {
    && !IsBlank(input)
    && |Split(input.value, Delimiter)| >= 1
    && Split(input.value, Delimiter)[0] !in worlds
  }

  /** parseLocation(String, boolean): blank input (null, empty or whitespace only) is rejected
      before anything else; otherwise the input is split on '/' and the fields are read. Without
      parseExact, yaw and pitch are 0 whatever follows field 3. */
  function ParseLocation(input: JString, parseExact: bool, worlds: WorldRegistry)
    : (r: Result<Location, ParseError>)
    ensures r == Failure(BlankInput) <==> IsBlank(input)
    ensures r.Success? ==> r.value.world in worlds
    ensures r.Success? ==> |Split(input.value, Delimiter)| >= FieldsRead(parseExact)
    ensures r.Success? ==> r.value.world == Split(input.value, Delimiter)[0]
    ensures r.Success? && !parseExact ==> r.value.yaw == 0 && r.value.pitch == 0
    ensures r.Failure? && r.error.WorldNotFound? ==> r.error.name !in worlds
    ensures WorldMissing(input, worlds) ==>
      r == Failure(WorldNotFound(Split(input.value, Delimiter)[0]))
    ensures r.Failure? && r.error.WorldNotFound? ==> WorldMissing(input, worlds)
    ensures r.Failure? && r.error.MissingField? ==>
      r.error.index == |Split(input.value, Delimiter)| < FieldsRead(parseExact)
    ensures r.Failure? && r.error.NotANumber? ==>
      NotANumberAt(Split(input.value, Delimiter), r.error.index, parseExact)
    ensures r.Failure? && (r.error.MissingField? || r.error.NotANumber?) ==>
      NumericBetween(Split(input.value, Delimiter), 1, r.error.index)
    ensures r.Success? ==> ReadFrom(Split(input.value, Delimiter), r.value, parseExact)
  {
    if IsBlank(input) then Failure(BlankInput)
    else ParseFields(Split(input.value, Delimiter), parseExact, worlds)
  }

  /** parseLocation(String): the parse that reads yaw and pitch too. Blank input is rejected
      and an unloaded world is reported; it succeeds exactly when all six fields are there, the
      world is loaded and the five numbers parse, and then the location is built from them and
      agrees on world and block with the two-argument parse without orientation. Otherwise the
      first missing or non-numeric field is reported. */
  function ParseLocationExact(input: JString, worlds: WorldRegistry): (r: Result<Location, ParseError>)
    ensures r == Failure(BlankInput) <==> IsBlank(input)
    ensures r.Success? <==>
      && !IsBlank(input)
      && var args := Split(input.value, Delimiter);
         |args| >= 6 && args[0] in worlds && NumericFields(args, true)
    ensures r.Failure? && r.error.WorldNotFound? <==> WorldMissing(input, worlds)
    ensures WorldMissing(input, worlds) ==> r.error.name == Split(input.value, Delimiter)[0]
    ensures r.Failure? && r.error.MissingField? ==>
      r.error.index == |Split(input.value, Delimiter)| < 6
    ensures r.Failure? && r.error.NotANumber? ==>
      NotANumberAt(Split(input.value, Delimiter), r.error.index, true)
    ensures r.Failure? && (r.error.MissingField? || r.error.NotANumber?) ==>
      NumericBetween(Split(input.value, Delimiter), 1, r.error.index)
    ensures r.Success? ==>
      && |Split(input.value, Delimiter)| >= 6
      && r.value.world == Split(input.value, Delimiter)[0]
      && r.value.world in worlds
    ensures r.Success? ==> ReadFrom(Split(input.value, Delimiter), r.value, true)
    ensures r.Success? ==>
      ParseLocation(input, false, worlds) == Success(r.value.(yaw := 0, pitch := 0))
  {
    ExactParseRefinesInexact(input, worlds);
    ParseLocationSucceeds(input, true, worlds);
    ParseLocation(input, true, worlds)
  }

  /** Every field a parse reads is a number of the right kind. */
  predicate NumericFields(args: seq<string>, parseExact: bool)
    requires |args| >= FieldsRead(parseExact)
  {
    && ParseIntegralDouble(args[1]).Some?
    && ParseIntegralDouble(args[2]).Some?
    && ParseIntegralDouble(args[3]).Some?
    && (parseExact ==> ParseLong(args[4]).Some? && ParseLong(args[5]).Some?)
  }

  lemma ParseFieldsSucceeds(args: seq<string>, parseExact: bool, worlds: WorldRegistry)
    ensures ParseFields(args, parseExact, worlds).Success? <==>
      |args| >= FieldsRead(parseExact) && args[0] in worlds && NumericFields(args, parseExact)
  {
    if |args| >= FieldsRead(parseExact) && args[0] in worlds {
      assert ReadCoordinates(args).Success? <==>
        && ParseIntegralDouble(args[1]).Some?
        && ParseIntegralDouble(args[2]).Some?
        && ParseIntegralDouble(args[3]).Some?;
      if parseExact {
        assert ReadOrientation(args).Success? <==>
          ParseLong(args[4]).Some? && ParseLong(args[5]).Some?;
      }
    }
  }

  /** The conditions under which parseLocation returns a location: the input is not blank, it has
      at least as many fields as the parse reads, field 0 names a loaded world and every field
      read is a number. */
  lemma ParseLocationSucceeds(input: JString, parseExact: bool, worlds: WorldRegistry)
    ensures ParseLocation(input, parseExact, worlds).Success? <==>
      && !IsBlank(input)
      && var args := Split(input.value, Delimiter);
         |args| >= FieldsRead(parseExact) && args[0] in worlds && NumericFields(args, parseExact)
  {
    if !IsBlank(input) {
      ParseFieldsSucceeds(Split(input.value, Delimiter), parseExact, worlds);
    }
  }

  /** Reading the six fields toString writes gives the location back (with zero orientation
      when orientation is not read). */
  lemma ParseFieldsOfFields(loc: Location, parseExact: bool, worlds: WorldRegistry)
    requires loc.world in worlds
    requires parseExact ==> InLongRange(loc.yaw) && InLongRange(loc.pitch)
    ensures ParseFields(Fields(loc), parseExact, worlds) ==
      Success(if parseExact then loc else loc.(yaw := 0, pitch := 0))
  {
    CoordinatesReadBack(Fields(loc), loc.x, loc.y, loc.z);
    if parseExact {
      OrientationReadBack(loc);
    }
  }

  /** Reading fields 1, 2 and 3 when they hold the written x, y and z gives that block back. */
  lemma CoordinatesReadBack(args: seq<string>, x: int, y: int, z: int)
    requires |args| >= 4
    requires args[1] == IntToString(x) && args[2] == IntToString(y) && args[3] == IntToString(z)
    ensures ReadCoordinates(args) == Success(Block(x, y, z))
  {
    CoordinateReadBack(args, 1, x);
    CoordinateReadBack(args, 2, y);
    CoordinateReadBack(args, 3, z);
  }

  lemma CoordinateReadBack(args: seq<string>, i: nat, n: int)
    requires i < |args| && args[i] == IntToString(n)
    ensures CoordinateField(args, i) == Success(n)
  {
    ParseIntegralDoubleOfIntToString(n);
  }

  lemma OrientationReadBack(loc: Location)
    requires InLongRange(loc.yaw) && InLongRange(loc.pitch)
    ensures ReadOrientation(Fields(loc)) == Success((loc.yaw, loc.pitch))
  {
    var args := Fields(loc);
    ParseLongOfIntToString(loc.yaw);
    ParseLongOfIntToString(loc.pitch);
    assert OrientationField(args, 4) == Success(loc.yaw);
    assert OrientationField(args, 5) == Success(loc.pitch);
  }

  /** Reading back what toString wrote gives the same location, provided the world name holds
      no '/', the world is loaded and yaw and pitch fit Long.parseLong. */
  lemma ParseAfterToString(loc: Location, worlds: WorldRegistry)
    requires Delimiter !in loc.world && loc.world in worlds
    requires InLongRange(loc.yaw) && InLongRange(loc.pitch)
    ensures ParseLocation(Some(ToString(loc)), true, worlds) == Success(loc)
    ensures ParseLocationExact(Some(ToString(loc)), worlds) == Success(loc)
  {
    ParseFieldsOfFields(loc, true, worlds);
    assert Split(ToString(loc), Delimiter) == Fields(loc);
  }

  /** Without parseExact, reading back what toString wrote gives the same world and block but
      zero yaw and pitch, whatever they were. */
  lemma ParseInexactAfterToString(loc: Location, worlds: WorldRegistry)
    requires Delimiter !in loc.world && loc.world in worlds
    ensures ParseLocation(Some(ToString(loc)), false, worlds) == Success(loc.(yaw := 0, pitch := 0))
  {
    ParseFieldsOfFields(loc, false, worlds);
    assert Split(ToString(loc), Delimiter) == Fields(loc);
  }

  /** Whenever the exact parse succeeds, the parse without orientation succeeds on the same input
      with the same world and block. */
  lemma ExactParseRefinesInexact(input: JString, worlds: WorldRegistry)
    ensures ParseLocation(input, true, worlds).Success? ==>
      ParseLocation(input, false, worlds) ==
        Success(ParseLocation(input, true, worlds).value.(yaw := 0, pitch := 0))
  {
    ParseLocationSucceeds(input, true, worlds);
    ParseLocationSucceeds(input, false, worlds);
  }

  // ---------------------------------------------------------------------------
  // Comparisons
  // ---------------------------------------------------------------------------

  /** isSimilar: same world name and same block coordinates; orientation is ignored. */
  predicate IsSimilar(a: Location, b: Location) {
    a.world == b.world && a.x == b.x && a.y == b.y && a.z == b.z
  }

  /** isExact: the isSimilar comparison plus equal pitch and yaw. */
  predicate IsExact(a: Location, b: Location) {
    && a.world == b.world && a.x == b.x && a.y == b.y && a.z == b.z
    && a.pitch == b.pitch && a.yaw == b.yaw
  }

  ghost predicate Equivalence(rel: (Location, Location) -> bool) {
    && (forall a :: rel(a, a))
    && (forall a, b :: rel(a, b) ==> rel(b, a))
    && (forall a, b, c :: rel(a, b) && rel(b, c) ==> rel(a, c))
  }

  /** isExact is isSimilar together with equal orientation; in particular it implies isSimilar. */
  lemma ExactIsSimilarWithOrientation(a: Location, b: Location)
    ensures IsExact(a, b) <==> IsSimilar(a, b) && a.yaw == b.yaw && a.pitch == b.pitch
    ensures IsExact(a, b) ==> IsSimilar(a, b)
  {
  }

  /** Changing only the orientation keeps a location similar to itself. */
  lemma SimilarIgnoresOrientation(a: Location, yaw: int, pitch: int)
    ensures IsSimilar(a, a.(yaw := yaw, pitch := pitch))
    ensures IsExact(a, a.(yaw := yaw, pitch := pitch)) <==> a.yaw == yaw && a.pitch == pitch
  {
  }

  /** Both comparisons are equivalence relations. */
  lemma ComparisonsAreEquivalences()
    ensures Equivalence(IsSimilar)
    ensures Equivalence(IsExact)
  {
  }

  // ---------------------------------------------------------------------------
  // Region scans
  // ---------------------------------------------------------------------------

  /** b lies in the cube of half-side radius around the centre's block. */
  predicate InCube(center: Location, radius: int, b: Block) {
    && center.x - radius <= b.x <= center.x + radius
    && center.y - radius <= b.y <= center.y + radius
    && center.z - radius <= b.z <= center.z + radius
  }

  function Square(n: int): int {
    n * n
  }

  /** Location.distanceSquared between a block's corner and a block-aligned centre. */
  function DistanceSquared(b: Block, center: Location): int {
    Square(b.x - center.x) + Square(b.y - center.y) + Square(b.z - center.z)
  }

  /** The circle scans' test: distanceSquared <= radius * radius. */
  predicate InCircle(center: Location, radius: int, b: Block) {
    DistanceSquared(b, center) <= radius * radius
  }

  /** getBlocksInRadiusSquare(center, radius): every block of the cube around the centre, each
      once, in ascending x, then y, then z; (2r+1)^3 of them for r >= 0 and none for r < 0. */
  function BlocksInRadiusSquare(center: Location, radius: int): (r: seq<Block>)
    ensures |r| == if radius >= 0 then (2 * radius + 1) * (2 * radius + 1) * (2 * radius + 1) else 0
    ensures forall b :: b in r <==> InCube(center, radius, b)
    ensures Ascending(r)
  {
    var xs := Interval(center.x - radius, center.x + radius);
    var ys := Interval(center.y - radius, center.y + radius);
    var zs := Interval(center.z - radius, center.z + radius);
    IntervalFacts(center.x - radius, center.x + radius);
    IntervalFacts(center.y - radius, center.y + radius);
    IntervalFacts(center.z - radius, center.z + radius);
    CuboidAscending(xs, ys, zs);
    var n := if radius >= 0 then 2 * radius + 1 else 0;
    assert |xs| == n && |ys| == n && |zs| == n;
    assert n * (n * n) == n * n * n;
    Cuboid(xs, ys, zs)
  }

  /** getBlocksInRadiusSquare(center, radius, condition): the cube's blocks that satisfy the
      predicate, in scan order; an ordered subsequence of the unfiltered scan. */
  function BlocksInRadiusSquareWhere(center: Location, radius: int, condition: Block -> bool)
    : (r: seq<Block>)
    ensures forall b :: b in r <==> InCube(center, radius, b) && condition(b)
    ensures Ascending(r)
    ensures IsSubsequence(r, BlocksInRadiusSquare(center, radius))
  {
    var all := BlocksInRadiusSquare(center, radius);
    FilterAscending(all, condition);
    FilterIsSubsequence(all, condition);
    Filter(all, condition)
  }

  /** Outside [-r, r] the square exceeds r * r. */
  lemma SquareExceeds(d: int, r: int)
    requires r >= 0
    ensures (d > r || d < -r) ==> Square(d) > r * r
  {
    if d > r {
      assert Square(d) - r * r == (d - r) * (d + r);
      assert (d - r) * (d + r) > 0;
    } else if d < -r {
      assert Square(d) - r * r == (-d - r) * (-d + r);
      assert (-d - r) * (-d + r) > 0;
    }
  }

  lemma SquareNonNegative(d: int)
    ensures Square(d) >= 0
  {
    if d < 0 {
      assert Square(d) == (-d) * (-d);
    }
  }

  /** For r >= 0 every block within the circle also lies in the cube. */
  lemma CircleInsideCube(center: Location, radius: int, b: Block)
    requires radius >= 0 && InCircle(center, radius, b)
    ensures InCube(center, radius, b)
  {
    var dx, dy, dz := b.x - center.x, b.y - center.y, b.z - center.z;
    SquareNonNegative(dx);
    SquareNonNegative(dy);
    SquareNonNegative(dz);
    assert DistanceSquared(b, center) == Square(dx) + Square(dy) + Square(dz);
    assert Square(dx) <= radius * radius;
    assert Square(dy) <= radius * radius;
    assert Square(dz) <= radius * radius;
    SquareExceeds(dx, radius);
    SquareExceeds(dy, radius);
    SquareExceeds(dz, radius);
  }

  lemma CircleInsideCubeEverywhere(center: Location, radius: int)
    ensures forall b :: radius >= 0 && InCircle(center, radius, b) ==> InCube(center, radius, b)
  {
    forall b | radius >= 0 && InCircle(center, radius, b)
      ensures InCube(center, radius, b)
    {
      CircleInsideCube(center, radius, b);
    }
  }

  /** From radius 1 on, the corner block of the cube lies outside the circle, so the circle scan
      keeps fewer blocks than the square scan. */
  lemma CornerOutsideCircle(center: Location, radius: int, inCircle: Block -> bool)
    requires forall b :: inCircle(b) == InCircle(center, radius, b)
    ensures radius >= 1 ==> |Filter(BlocksInRadiusSquare(center, radius), inCircle)| < |BlocksInRadiusSquare(center, radius)|
  {
    if radius >= 1 {
      var corner := Block(center.x + radius, center.y + radius, center.z + radius);
      assert DistanceSquared(corner, center) == 3 * (radius * radius);
      FilterDropsRejected(BlocksInRadiusSquare(center, radius), inCircle, corner);
    }
  }

  /** getBlocksInRadiusCircle(center, radius): exactly the blocks whose squared distance to the
      centre is at most radius^2 (none for a negative radius), in scan order; an ordered
      subsequence of the square scan, and a strictly shorter one once radius >= 1 (the corner
      block is always left out). */
  function BlocksInRadiusCircle(center: Location, radius: int): (r: seq<Block>)
    ensures forall b :: b in r <==> radius >= 0 && InCircle(center, radius, b)
    ensures Ascending(r)
    ensures IsSubsequence(r, BlocksInRadiusSquare(center, radius))
    ensures radius >= 1 ==> |r| < |BlocksInRadiusSquare(center, radius)|
  {
    var all := BlocksInRadiusSquare(center, radius);
    var inCircle := (b: Block) => InCircle(center, radius, b);
    FilterAscending(all, inCircle);
    FilterIsSubsequence(all, inCircle);
    CircleInsideCubeEverywhere(center, radius);
    CornerOutsideCircle(center, radius, inCircle);
    Filter(all, inCircle)
  }

  /** getBlocksInRadiusCircle(center, radius, condition): the blocks of the circle that also
      satisfy the predicate, in scan order; an ordered subsequence of the unfiltered circle
      scan. The distance is tested before the predicate, as in the loop. */
  function BlocksInRadiusCircleWhere(center: Location, radius: int, condition: Block -> bool)
    : (r: seq<Block>)
    ensures forall b :: b in r <==> radius >= 0 && InCircle(center, radius, b) && condition(b)
    ensures Ascending(r)
    ensures IsSubsequence(r, BlocksInRadiusCircle(center, radius))
  {
    var all := BlocksInRadiusSquare(center, radius);
    var inCircle := (b: Block) => InCircle(center, radius, b);
    var test := (b: Block) => InCircle(center, radius, b) && condition(b);
    FilterAscending(all, test);
    FilterStrongerIsSubsequence(all, inCircle, test);
    CircleInsideCubeEverywhere(center, radius);
    Filter(all, test)
  }

  /** The filtered circle scan is the unfiltered circle scan with the predicate applied to it. */
  lemma CircleWhereFiltersCircle(center: Location, radius: int, condition: Block -> bool)
    ensures BlocksInRadiusCircleWhere(center, radius, condition) ==
      Filter(BlocksInRadiusCircle(center, radius), condition)
  {
    var all := BlocksInRadiusSquare(center, radius);
    var inCircle := (b: Block) => InCircle(center, radius, b);
    var test := (b: Block) => InCircle(center, radius, b) && condition(b);
    FilterFilter(all, inCircle, condition, test);
  }

  /** The square scans are fixed by what they contain: any sequence in scan order holding exactly
      the cube's blocks that satisfy the predicate is the filtered square scan. */
  lemma SquareScanIsDeterminedByMembers(s: seq<Block>, center: Location, radius: int, condition: Block -> bool)
    requires Ascending(s)
    requires forall b :: b in s <==> InCube(center, radius, b) && condition(b)
    ensures s == BlocksInRadiusSquareWhere(center, radius, condition)
  {
    AscendingUnique(s, BlocksInRadiusSquareWhere(center, radius, condition));
  }

  /** Likewise for the circle scan: it is the only sequence in scan order holding exactly the
      blocks within the circle. */
  lemma CircleScanIsDeterminedByMembers(s: seq<Block>, center: Location, radius: int)
    requires Ascending(s)
    requires forall b :: b in s <==> radius >= 0 && InCircle(center, radius, b)
    ensures s == BlocksInRadiusCircle(center, radius)
  {
    AscendingUnique(s, BlocksInRadiusCircle(center, radius));
  }
}

=== FILE: message_utils.dfy ===
/** MessageUtils: colour-code translation and stripping guarded against blank text, prefixing of
    chat messages, and the send helpers. The state of an instance is its prefix and the flag that
    says whether to use it; a chat recipient (player or command sender) is the sequence of
    strings it has been sent.
 */
module MessageUtils {
  import opened Wrappers
  import opened JavaLang

  /** The marker that colour codes are written with in plain text ("&c" for red). */
  const AltColorChar: char := '&'

  /** Bukkit's ChatColor, which this class calls but does not define. */
  datatype ChatColor = ChatColor(
    translateAlternateColorCodes: (char, string) -> string,
    stripColor: string -> string)

  /** The fields of a MessageUtils: the prefix (null when none) and whether messages carry it. */
  datatype Formatter = Formatter(pluginPrefix: JString, hasPrefix: bool)

  /** MessageUtils(plugin): no prefix, and prefixing off. */
  function NewFormatter(): (f: Formatter)
    ensures f.pluginPrefix.None? && !f.hasPrefix
  {
    Formatter(None, false)
  }

  /** MessageUtils(plugin, pluginPrefix): keeps the prefix and turns prefixing on, whatever the
      prefix is, null and blank included. */
  function WithPrefix(pluginPrefix: JString): (f: Formatter)
    ensures f.pluginPrefix == pluginPrefix && f.hasPrefix
  {
    Formatter(pluginPrefix, true)
  }

  /** getPluginPrefix. */
  function GetPluginPrefix(f: Formatter): JString {
    f.pluginPrefix
  }

  /** setPluginPrefix: keeps the prefix as given and turns prefixing on exactly when it is not
      blank. */
  function SetPluginPrefix(f: Formatter, pluginPrefix: JString): (g: Formatter)
    ensures GetPluginPrefix(g) == pluginPrefix
    ensures g.hasPrefix <==> !IsBlank(pluginPrefix)
  {
    if IsBlank(pluginPrefix) then f.(pluginPrefix := pluginPrefix, hasPrefix := false)
    else f.(pluginPrefix := pluginPrefix, hasPrefix := true)
  }

  /** Setting a prefix forgets everything about the previous state: the last setter call decides. */
  lemma SetPluginPrefixOverwrites(f: Formatter, g: Formatter, p: JString, q: JString)
    ensures SetPluginPrefix(SetPluginPrefix(f, p), q) == SetPluginPrefix(g, q)
    ensures GetPluginPrefix(SetPluginPrefix(f, p)) == p
  {
  }

  /** getPluginPrefix returns the prefix last written: null after the default constructor, the
      constructor's argument after the prefix constructor, and the setter's argument after a
      setter call, blank or not. */
  lemma PrefixGetterReturnsLastWritten(f: Formatter, p: JString)
    ensures GetPluginPrefix(NewFormatter()) == None
    ensures GetPluginPrefix(WithPrefix(p)) == p
    ensures GetPluginPrefix(SetPluginPrefix(f, p)) == p
  {
  }

  /** colorize: null for blank text, otherwise ChatColor's translation of the '&' codes. */
  function Colorize(cc: ChatColor, message: JString): (r: JString)
    ensures r.None? <==> IsBlank(message)
    ensures r.Some? ==> r.value == cc.translateAlternateColorCodes(AltColorChar, message.value)
  {
    if IsBlank(message) then None
    else Some(cc.translateAlternateColorCodes(AltColorChar, message.value))
  }

  /** stripColorCodes: null for blank text, otherwise ChatColor's stripping of colour codes. */
  function StripColorCodes(cc: ChatColor, message: JString): (r: JString)
    ensures r.None? <==> IsBlank(message)
    ensures r.Some? ==> r.value == cc.stripColor(message.value)
  {
    if IsBlank(message) then None
    else Some(cc.stripColor(message.value))
  }

  /** formatMessage: "" for blank text; otherwise the message itself, preceded by the prefix and a
      space when prefixing is on (a null prefix reads "null", as Java's string concatenation
      writes it). A message that is not blank stays not blank. */
  function FormatMessage(f: Formatter, message: JString): (r: string)
    ensures IsBlank(message) ==> r == ""
    ensures !IsBlank(message) ==> !Blank(r)
    ensures !IsBlank(message) ==>
      |r| >= |message.value| && r[|r| - |message.value|..] == message.value
    ensures !IsBlank(message) ==>
      r[..|r| - |message.value|] == if f.hasPrefix then ConcatText(f.pluginPrefix) + " " else ""
  {
    if IsBlank(message) then ""
    else if f.hasPrefix then
      var r := ConcatText(f.pluginPrefix) + " " + message.value;
      ConcatNotBlank(ConcatText(f.pluginPrefix) + " ", message.value);
      r
    else message.value
  }

  /** sendColorCachedMessage (player and command-sender overloads alike): nothing is sent for
      blank text; otherwise the recipient receives exactly one string, the formatted message,
      and nothing it received before changes. */
  function SendColorCachedMessage(f: Formatter, received: seq<string>, message: JString)
    : (r: seq<string>)
    ensures |r| == |received| + (if IsBlank(message) then 0 else 1)
    ensures r[..|received|] == received
    ensures !IsBlank(message) ==> r[|received|] == FormatMessage(f, message)
  {
    if IsBlank(message) then received
    else received + [FormatMessage(f, message)]
  }

  /** sendMessage (player and command-sender overloads alike): nothing is sent for blank text;
      otherwise the recipient receives exactly one string, the colour translation of the
      formatted message. The colorize call inside never yields null, since formatting keeps a
      non-blank message non-blank. */
  function SendMessage(f: Formatter, cc: ChatColor, received: seq<string>, message: JString)
    : (r: seq<string>)
    ensures |r| == |received| + (if IsBlank(message) then 0 else 1)
    ensures r[..|received|] == received
    ensures !IsBlank(message) ==>
      r[|received|] == Colorize(cc, Some(FormatMessage(f, message))).value
  {
    if IsBlank(message) then received
    else
      var colored := Colorize(cc, Some(FormatMessage(f, message)));
      received + [colored.value]
  }

  /** The prefix constructor does not look at its argument: with a null prefix every message is
      sent as "null " + message, and with an empty prefix with a leading space, where the setter
      would have turned prefixing off. */
  lemma PrefixConstructorKeepsBlankPrefix()
    ensures FormatMessage(WithPrefix(None), Some("hi")) == "null hi"
    ensures FormatMessage(WithPrefix(Some("")), Some("hi")) == " hi"
    ensures WithPrefix(None) != SetPluginPrefix(NewFormatter(), None)
  {
    NotBlankWitness("hi", 0);
  }

  /** The prefix constructor with the setter's blank check: prefixing is on exactly when the
      prefix is not blank. */
  function WithPrefixChecked(pluginPrefix: JString): (f: Formatter)
    ensures f.pluginPrefix == pluginPrefix
    ensures f.hasPrefix <==> !IsBlank(pluginPrefix)
  {
    SetPluginPrefix(NewFormatter(), pluginPrefix)
  }

  /** With the checked constructor a message is prefixed only by a real prefix: a non-blank
      message becomes "prefix message" when the prefix is not blank and stays as it is
      otherwise, so neither "null" nor a bare leading space is ever added. */
  lemma WithPrefixCheckedFormats(pluginPrefix: JString, message: JString)
    requires !IsBlank(message)
    ensures FormatMessage(WithPrefixChecked(pluginPrefix), message) ==
      if IsBlank(pluginPrefix) then message.value
      else pluginPrefix.value + " " + message.value
  {
  }
}

=== FILE: wrappers.dfy ===
/** The two ways a Java call in this model can end without a value.
    - Option: a reference that may be null, or a java.util.Optional that may be empty.
    - Result: a call that returns a value or throws; the error value names the exception.
    Both support Dafny's `:-` operator, so a thrown exception propagates to the caller as it
    does in Java.
 */
module Wrappers {

  datatype Option<+T> = None | Some(value: T) {
    predicate IsFailure() { None? }

    function PropagateFailure<U>(): Option<U>
      requires None?
    {
      None
    }

    function Extract(): T
      requires Some?
    {
      value
    }
  }

  datatype Result<+T, +E> = Success(value: T) | Failure(error: E) {
    predicate IsFailure() { Failure? }

    function PropagateFailure<U>(): Result<U, E>
      requires Failure?
    {
      Failure(error)
    }

    function Extract(): T
      requires Success?
    {
      value
    }
  }
}
